=== FILE: README.md ===
# Audio gate, voice arbiter and orientation lock

A Dafny model of the audio core of a small Phaser counting game. Two source
files are covered:

- `src/audio/AudioManager.ts`: the `AudioManager` singleton. It loads a fixed
  catalog of clips through Howler. It holds back the first sound until the
  first user gesture (the browser autoplay rule), keeping at most one
  deferred id, first writer wins. It also stops single sounds, every sound,
  or every voice prompt.
- `src/rotateOrientation.ts`: the voice arbiter `playVoiceLocked`. It keeps
  one current voice and lets a new one pre-empt it only with a strictly
  higher priority tier. On top of it sits the orientation lock: while a
  phone is held upright, a blocking overlay is shown and every non-rotate
  voice is dropped. Every tap the block handler receives requests the
  `voice-rotate` prompt again, which restarts it once the audio has loaded
  and the gesture has happened.

The model is a functional state machine:

- `AudioManager.Audio` holds the manager's fields: `isLoaded`, the keys with
  a Howl, `hasUserInteracted`, `queuedFirstSoundId`, and the counter of every
  `loadAll` call.
- `RotateOrientation.World` adds the module variables `currentVoiceKey`,
  `isRotateOverlayActive` and `globalBlockListenersAttached`.
- Every operation is a pure function. It returns the new state and the list
  of engine requests it issued (`Engine.Effect`: `Play(id)`, `Stop(id)`,
  `StopAll`).
- The value Howler's `play()` returns is an oracle parameter `answer`.
  `None` stands for `undefined`.
- `System.Event` lists everything the outside world can do: scene calls,
  load callbacks, the seven input event types, resize. A resize only reaches
  the hint update once init has registered the resize listeners, and init
  installs the block handler first. `System.Run` folds a sequence of
  events.

JavaScript truthiness is kept: a `null` or `""` deferred id or current voice
is "absent" (`Text.Truthy`). Under the invariants the empty string never
occurs, because no catalog key is empty.

Invariants proved for every reachable world (`System.Reachable`):

- at most one deferred sound;
- after the gesture, nothing is deferred;
- a deferred id is loaded and has a Howl;
- a current voice went through the gate after the gesture;
- while locked, the current voice is `voice-rotate` or nothing;
- while locked, the block handler is installed, so every tap reaches it
  (`System.TapWhileLocked`).

Behaviour of the code a reader might not expect:

- `play` defers nothing while the catalog is not loaded: it returns at the
  guard first. No path plays a deferred sound when loading completes; only
  the gesture delivers it (`AudioManagerLemmas.UnlockDeliversDeferred`).
- A key whose load failed still has its Howl, so after the gesture `play`
  reaches the engine for it. `AudioManagerLemmas.EveryCatalogKeyPlays`
  states this; it does not report "not found".
- The tier table names `sfx_correct`/`sfx_wrong` with underscores, while the
  catalog keys are `sfx-correct`/`sfx-wrong`. So every catalog key has
  tier 1 except `voice-rotate`, which has tier 4
  (`RotateOrientationLemmas.CatalogTiers`, `FeedbackSpelling`).
- Nothing clears `currentVoiceKey` when a clip ends. So once a catalog voice
  is current, every other non-rotate catalog request is rejected
  (`RotateOrientationLemmas.CatalogVoiceHoldsTheSlot`) until something clears
  it: the lock, a `voice-rotate` request, or a higher-tier request for a key
  outside the catalog. That last request stops and forgets the current voice
  but plays nothing, because the key has no Howl
  (`RotateOrientationLemmas.PreemptionOnlyClears`).
- Strict pre-emption that ends with a new current voice
  (`RotateOrientationLemmas.StrictPreemption`) needs a sound set holding a
  key of tier 2 to 4 besides `voice-rotate`. This catalog has none, so it
  never happens here.

## Model

| member | source | states |
|---|---|---|
| AudioManager.Play | src/audio/AudioManager.ts:159-186 | not loaded or unknown id: nothing changes, no token; before the gesture: the id is deferred only if the slot is empty, nothing plays; after it: exactly one engine play, its token returned, state unchanged |
| AudioManager.Unlock | src/audio/AudioManager.ts:83-95 | a repeat call changes nothing; the first sets the gesture flag and, if a deferred id with a Howl exists, plays it once and empties the slot; nothing else changes |
| AudioManager.LoadKeys | src/audio/AudioManager.ts:111-126 | a new counter starts at 0 over the key count (resolved at once for no keys); a Howl is installed for every key; flags and slot untouched |
| AudioManager.LoadAll | src/audio/AudioManager.ts:111-153 | on the catalog: every catalog key gets a Howl and a fresh counter over 25 keys is added, without setting `isLoaded` |
| AudioManager.OnLoadSettled | src/audio/AudioManager.ts:128-150 | a success or error callback bumps only its own run's counter; `isLoaded` becomes true exactly when that counter reaches the total, and never reverts |
| AudioManager.Stop | src/audio/AudioManager.ts:188-191 | stops the id iff loaded and the id has a Howl, otherwise issues nothing |
| AudioManager.StopAll | src/audio/AudioManager.ts:199-201 | one global engine stop |
| AudioManager.StopVoiceKeys | src/audio/AudioManager.ts:193-215 | over a key list: issues a stop for exactly the voice-prompt keys that have a Howl, loaded or not, and nothing else |
| AudioManager.StopAllVoicePrompts | src/audio/AudioManager.ts:206-215 | stops exactly the catalog keys starting with `prompt_` or `correct_answer_` that have a Howl |
| AudioManager.CorrectAnswerId | src/audio/AudioManager.ts:217-219 | draw k names catalog entry 3 + k (the k-th `correct_answer_` clip), a voice-prompt key |
| AudioManager.PlayCorrectAnswer | src/audio/AudioManager.ts:217-220 | plays at most the drawn `correct_answer_k`, and plays it exactly when it is ready and the gesture has happened; before the gesture nothing reaches the engine and the drawn id takes the deferred slot only if it is empty (first writer wins); no other manager field changes |
| AudioManager.PromptId | src/audio/AudioManager.ts:222-223 | `prompt_{type}_{animal}` is a voice-prompt key ending in the animal |
| AudioManager.ParsePromptId | src/audio/AudioManager.ts:222-223 | reads an id back into (type, animal); whatever it returns rebuilds the same id |
| AudioManager.PlayPrompt | src/audio/AudioManager.ts:222-225 | plays at most the built id, exactly when it is ready and gestured; the id takes the deferred slot only if it is empty (first writer wins); no other manager field changes |
| Catalog.KeysDistinct | src/audio/AudioManager.ts:16-63 | the catalog keys are distinct |
| Catalog.DistinctCard | src/audio/AudioManager.ts:113-122 | a key list without repeats yields as many Howls as keys |
| Catalog.HowlCount | src/audio/AudioManager.ts:113-122 | `loadAll`'s counter total (25 keys) equals the number of distinct Howls it creates |
| Loader.Start | src/audio/AudioManager.ts:113-117 | a run's counter starts at 0 over `total` keys and resolves at once iff there are none |
| Loader.Settle | src/audio/AudioManager.ts:128-150 | each callback adds one; the completion branch is taken iff the new count equals the total |
| Loader.SettleTimesCounts | src/audio/AudioManager.ts:114-150 | after k callbacks the count is k more and the run is resolved iff the count has reached the total |
| Loader.ResolvesExactlyAtTotal | src/audio/AudioManager.ts:114-150 | a fresh run of n keys resolves after exactly n callbacks, never earlier |
| Loader.ReachedOnlyOnce | src/audio/AudioManager.ts:128-150 | the completion branch is taken by the n-th callback and by no other |
| AudioManagerLemmas.PlayKeepsValid | src/audio/AudioManager.ts:159-186 | `play` keeps the manager invariant (one deferred id, only before the gesture, only a ready one) |
| AudioManagerLemmas.UnlockKeepsValid | src/audio/AudioManager.ts:83-95 | `unlock` keeps the manager invariant |
| AudioManagerLemmas.LoadAllKeepsValid | src/audio/AudioManager.ts:111-153 | `loadAll` keeps the manager invariant |
| AudioManagerLemmas.OnLoadSettledKeepsValid | src/audio/AudioManager.ts:128-150 | a load callback keeps the manager invariant: loaded iff some run resolved |
| AudioManagerLemmas.GestureEmptiesQueue | src/audio/AudioManager.ts:168-171 | in a valid manager, after the gesture nothing is deferred |
| AudioManagerLemmas.UnlockIdempotent | src/audio/AudioManager.ts:84 | a second `unlock` plays nothing and changes nothing |
| AudioManagerLemmas.UnlockDeliversDeferred | src/audio/AudioManager.ts:86-95 | the first gesture plays the deferred id exactly once and empties the slot; the next plays nothing |
| AudioManagerLemmas.FirstWriterWins | src/audio/AudioManager.ts:168-183 | for any sequence of pre-gesture `play` calls, the slot ends as the one already deferred, else the first ready id; nothing reaches the engine |
| AudioManagerLemmas.FirstReady | src/audio/AudioManager.ts:160-171 | the reference for "first writer": the id it picks is ready and every id before it in the sequence is not; none is picked only when no id is ready |
| AudioManagerLemmas.NoEmptyReadyKey | src/audio/AudioManager.ts:16-63 | a ready id is a non-empty catalog key, so the truthiness tests never see `""` |
| AudioManagerLemmas.SettleRunCounts | src/audio/AudioManager.ts:128-150 | k callbacks of a run add k to its counter, keep the Howls, and set `isLoaded` iff the total is crossed |
| AudioManagerLemmas.LoadedExactlyWhenAllReported | src/audio/AudioManager.ts:113-150 | from never loaded, `isLoaded` holds after `loadAll` and k callbacks iff k reaches 25, failures included; every key keeps its Howl |
| AudioManagerLemmas.LoadedNeverReverts | src/audio/AudioManager.ts:131 | no manager operation resets `isLoaded` |
| AudioManagerLemmas.EveryCatalogKeyPlays | src/audio/AudioManager.ts:122-185 | once loaded and gestured, every catalog key, including one whose load failed, is played by the engine with its token returned |
| AudioManagerLemmas.PromptIdRoundTrip | src/audio/AudioManager.ts:222-223 | parsing a built prompt id gives back its type and animal |
| AudioManagerLemmas.PromptIdInjective | src/audio/AudioManager.ts:222-223 | different `playPrompt` arguments request different ids |
| AudioManagerLemmas.PromptIdsInCatalog | src/audio/AudioManager.ts:42-58 | every (type, catalog animal) prompt the game can ask for has a catalog entry |
| AudioManagerLemmas.CorrectAnswerIdsDistinct | src/audio/AudioManager.ts:217-219 | the four draws name four different entries |
| AudioManagerLemmas.StopAllVoicePromptsCoversCorrectAnswers | src/audio/AudioManager.ts:206-219 | once loading started, `stopAllVoicePrompts` stops every `playCorrectAnswer` id |
| RotateOrientation.GetVoicePriority | src/rotateOrientation.ts:27-40 | always 1..4: `drag_`/`q_` give 1; 2 iff `voice_need_finish`; 3 iff `sfx_correct`/`sfx_wrong`; 4 iff `voice_complete`/`voice_intro`/`voice_end`/`voice-rotate` |
| RotateOrientation.PlayVoiceLocked | src/rotateOrientation.ts:47-111 | locked and not rotate: no change, no effect; rotate: stop all, stop voice prompts, then play, and it is current iff a token came back; a repeat or an at-least-as-important current voice: no change; otherwise the old voice is stopped first and the new one is current iff a token came back |
| RotateOrientation.UpdateRotateHint | src/rotateOrientation.ts:204-248 | lock is `h > w && w < 768`; no transition: nothing changes; off to on: stop all, stop voice prompts, then a rotate request; on to off: only a current `voice-rotate` is stopped and cleared |
| RotateOrientation.AttachGlobalBlockInputListeners | src/rotateOrientation.ts:114-116 | afterwards the handler is installed; a second call changes nothing |
| RotateOrientation.BlockHandler | src/rotateOrientation.ts:118-139 | unlocked: nothing; locked: exactly a `voice-rotate` request |
| RotateOrientation.InitRotateOrientation | src/rotateOrientation.ts:259-262 | installs the handler and sets the lock from the viewport; with no lock transition nothing is stopped or requested and the audio and current voice stay; a portrait start stops everything first and makes `voice-rotate` current iff the engine plays it, otherwise no voice is current |
| RotateOrientationLemmas.PlayVoiceLockedKeepsValid | src/rotateOrientation.ts:47-111 | a voice request keeps the world invariant, lock clause included |
| RotateOrientationLemmas.RotateRequestRestoresValid | src/rotateOrientation.ts:63-89 | a rotate request re-establishes "locked implies current is rotate or nothing" whatever was current |
| RotateOrientationLemmas.UpdateRotateHintKeepsValid | src/rotateOrientation.ts:204-248 | every viewport re-evaluation made after the block handler is installed (the only kind init allows) keeps the world invariant |
| RotateOrientationLemmas.BlockHandlerKeepsValid | src/rotateOrientation.ts:118-139 | the input handler keeps the world invariant |
| RotateOrientationLemmas.PriorityFollowsTierTable | src/rotateOrientation.ts:27-40 | the chain of string tests equals the rank of the tier given by a prefix list and a named-key table |
| RotateOrientationLemmas.CatalogTiers | src/rotateOrientation.ts:27-40 | every catalog key has tier 1 except `voice-rotate` (tier 4) |
| RotateOrientationLemmas.FeedbackSpelling | src/rotateOrientation.ts:30 | the hyphenated catalog feedback keys get tier 1, the underscored names tier 3 |
| RotateOrientationLemmas.StrictPreemption | src/rotateOrientation.ts:93-110 | for a sound set holding a key of tier 2 to 4 (this catalog holds none): a strictly more important request stops the current voice, plays and becomes current; the less important one then changes nothing |
| RotateOrientationLemmas.PreemptionOnlyClears | src/rotateOrientation.ts:93-110 | in a reachable unlocked world, a request outranking the current voice stops it and leaves no current voice, since such a key is outside the catalog and has no Howl |
| RotateOrientationLemmas.RepeatIsNoop | src/rotateOrientation.ts:96 | requesting the current non-rotate voice again neither stops nor restarts it |
| RotateOrientationLemmas.CatalogVoiceHoldsTheSlot | src/rotateOrientation.ts:93-97 | with a non-rotate catalog voice current, any other non-rotate catalog request changes nothing |
| RotateOrientationLemmas.RotateAlwaysRestarts | src/rotateOrientation.ts:63-89 | with `voice-rotate` already current, a new request stops all sound first and plays it again |
| RotateOrientationLemmas.LockedRejectsOthers | src/rotateOrientation.ts:52-57 | while locked, a non-rotate request changes nothing and the current voice is rotate or nothing |
| RotateOrientationLemmas.UpdateRotateHintIdempotent | src/rotateOrientation.ts:210-218 | re-evaluating the same viewport changes nothing and issues nothing |
| RotateOrientationLemmas.LockPlaysRotate | src/rotateOrientation.ts:221-240 | locking a loaded, gestured world stops all sound first, plays `voice-rotate`, and makes it current iff a token came back |
| RotateOrientationLemmas.PortraitPhoneScenario | src/rotateOrientation.ts:208-248 | 375x667 locks, stops everything and makes the rotate prompt current; 1024x768 unlocks, stops it and clears the current voice |
| RotateOrientationLemmas.AttachIdempotent | src/rotateOrientation.ts:115-116 | attaching twice equals attaching once |
| System.OnInput | src/rotateOrientation.ts:118-156 | the three gesture kinds set the gesture flag; without the handler or while unlocked an input event is only the `unlock` listener; with the handler installed and the overlay up it is `unlock` followed by a `voice-rotate` request |
| System.Step | src/rotateOrientation.ts:259-270 | no event resets the load flag, the gesture flag or the listeners flag; a resize before init does nothing; the overlay never comes up before the handler is installed |
| System.OnInputKeepsValid | src/rotateOrientation.ts:118-139 | an input event (unlock, then handler) keeps the world invariant |
| System.StepKeepsValid | src/rotateOrientation.ts:47-111 | every event keeps the world invariant |
| System.RunKeepsValid | src/rotateOrientation.ts:5-11 | every trace from a valid world ends in a valid world |
| System.Reachable | src/audio/AudioManager.ts:168-171 | every reachable world: nothing deferred after the gesture, and while locked the current voice is rotate or nothing |
| System.TapWhileLocked | src/rotateOrientation.ts:118-139 | in every reachable locked world an input event is `unlock` then a `voice-rotate` request, and a gesture after loading plays `voice-rotate` |
| System.StepKeepsDeferred | src/audio/AudioManager.ts:168-183 | no event replaces a deferred id; it leaves the slot only by being played, after the gesture |
| System.DeferredNeverReplaced | src/audio/AudioManager.ts:168-183 | over any trace the deferred id stays until it is played, then the slot stays empty |
| System.AfterGestureNothingDeferred | src/audio/AudioManager.ts:84-95 | after the gesture no trace defers anything again |
| System.FlagsNeverRevert | src/audio/AudioManager.ts:84-86 | over any trace `isLoaded`, `hasUserInteracted` and the listeners flag never revert |
| System.LockedRequestsAreDropped | src/rotateOrientation.ts:52-57 | while locked, any sequence of non-rotate requests has no effect at all |

## Left out

- The Howler engine: decoding, `Howl` construction, `Howler.stop`, and what a play actually sounds like. Its `play()` answer is an oracle parameter; its requests are the effect list.
- The constructor's engine configuration (`autoUnlock`, master volume, `html5PoolSize`): engine settings with no effect on the gate.
- `SOUND_MAP` file paths, loop flags and volumes: configuration data. Only the key list is modelled.
- The overlay DOM (`ensureRotateOverlay`), its styling and `display` toggle, and the unreachable `if (!rotateOverlay) return` after it: user interface only.
- `addEventListener`/`removeEventListener`, capture phase, `stopPropagation`/`preventDefault`: each event is a direct call of the listener it reaches. The resize and `orientationchange` listeners are a `Resize` event, which does nothing before init has registered them. A second init registers nothing new, because the browser discards a repeat `addEventListener` with the same function and capture flag; its only re-evaluation is the direct `updateRotateHint()` call at src/rotateOrientation.ts:262, which `UpdateRotateHintIdempotent` shows is silent when the viewport has not changed.
- Promise resolution: the resolved state of a `loadAll` call is the `resolved` flag of its run.
- Load callbacks are not tied to particular keys. A run counts whatever callbacks arrive, as the source does.
- `Math.random`: `playCorrectAnswer` takes the drawn index 1..4 as a parameter.
- `console` logging, the `try/catch` wrappers and the `typeof am.stopAll === 'function'` checks: always satisfied by the real singleton, no behaviour.
- `stopSound` as a separately called operation: it is unused outside `stopAllVoicePrompts`, where `StopVoiceKeys` models it.
- The ignored Phaser parameters of `playVoiceLocked` and `initRotateOrientation`.
- JavaScript prototype lookups: `sounds` is a plain object, so `sounds['toString']` is truthy in the source. The model treats `sounds` as the set of keys a Howl was installed for.

=== FILE: audio_manager.dfy ===
/** The gesture/readiness gate of the `AudioManager` singleton: the load
    flag, the Howls installed by `loadAll`, the first-gesture flag and the
    single deferred "first sound". Every public operation is a pure
    transition from one `Audio` value to the next, together with the list
    of engine requests it issued. */
module AudioManager {
  import opened Wrappers
  import opened Text
  import Engine
  import Catalog
  import Loader

  /** The private fields of the manager.
      - `loaded`: `isLoaded`
      - `sounds`: the keys that have a Howl in `sounds`
      - `interacted`: `hasUserInteracted`
      - `queued`: `queuedFirstSoundId`
      - `runs`: the counter closure of every `loadAll` call so far */
  datatype Audio = Audio(
    loaded: bool,
    sounds: set<string>,
    interacted: bool,
    queued: Option<string>,
    runs: seq<Loader.Run>)

  /** The freshly constructed singleton. */
  const Initial: Audio := Audio(false, {}, false, None, [])

  /** The new state of a transition and the engine requests it issued. */
  datatype Step = Step(audio: Audio, effects: seq<Engine.Effect>)

  /** The outcome of `play`: a `Step` plus the value returned to the caller
      (`undefined` is `None`). */
  datatype Played = Played(audio: Audio, effects: seq<Engine.Effect>, token: Option<Engine.Token>)

  /** The guard at the top of `play` and `stop`: loaded, and a Howl exists
      for the id. */
  predicate Ready(a: Audio, id: string)
  {
    a.loaded && id in a.sounds
  }

  /** What every reachable manager satisfies. */
  predicate Valid(a: Audio)
  {
    && a.sounds == (if |a.runs| == 0 then {} else Catalog.KeySet)
    && (forall i :: 0 <= i < |a.runs| ==>
          a.runs[i].total == |Catalog.SoundKeys| && Loader.Consistent(a.runs[i]))
    && (a.loaded <==> exists i :: 0 <= i < |a.runs| && a.runs[i].resolved)
    // at most one deferred sound, only a playable one, only before the gesture
    && (a.queued.Some? ==> Truthy(a.queued) && Ready(a, a.queued.value) && !a.interacted)
  }

  // ---------------------------------------------------------------- play

  /** `play(id)`. `answer` is what the Howl's own `play()` returns if it is
      called. Not ready: nothing happens. Ready before the first gesture: the
      id is deferred if no first sound is deferred yet (first writer wins),
      and nothing plays. Ready after the gesture: exactly one engine play,
      whose token is handed back. */
  function Play(a: Audio, id: string, answer: Option<Engine.Token>): (r: Played)
    ensures !Ready(a, id) ==> r == Played(a, [], None)
    ensures Ready(a, id) && !a.interacted ==>
      && r.effects == [] && r.token == None
      && r.audio == a.(queued := r.audio.queued)
      && r.audio.queued == (if Truthy(a.queued) then a.queued else Some(id))
    ensures Ready(a, id) && a.interacted ==>
      r.audio == a && r.effects == [Engine.Play(id)] && r.token == answer
  {
    if !Ready(a, id) then Played(a, [], None)
    else if !a.interacted then
      if !Truthy(a.queued) then Played(a.(queued := Some(id)), [], None)
      else Played(a, [], None)
    else Played(a, [Engine.Play(id)], answer)
  }

  // --------------------------------------------------------------- unlock

  /** The `unlock` listener for the first pointerdown/touchstart/click.
      A repeated call changes nothing. The first call sets the gesture flag
      and, when a deferred id with a Howl exists, plays it once and empties
      the slot. */
  function Unlock(a: Audio): (r: Step)
    ensures a.interacted ==> r == Step(a, [])
    ensures r.audio.interacted
    ensures r.audio == a.(interacted := true, queued := r.audio.queued)
    ensures !a.interacted && Truthy(a.queued) && a.queued.value in a.sounds ==>
      r.effects == [Engine.Play(a.queued.value)] && r.audio.queued == None
    ensures !(Truthy(a.queued) && a.queued.value in a.sounds) ==>
      r.effects == [] && r.audio.queued == a.queued
  {
    if a.interacted then Step(a, [])
    else
      var a' := a.(interacted := true);
      if Truthy(a.queued) && a.queued.value in a.sounds then
        Step(a'.(queued := None), [Engine.Play(a.queued.value)])
      else
        Step(a', [])
  }

  // -------------------------------------------------------------- loading

  /** `loadAll` over the given key list: with no keys the promise resolves
      at once and nothing is installed; otherwise a Howl is installed for
      every key before any callback can arrive. */
  function LoadKeys(a: Audio, keys: seq<string>): (r: Audio)
    ensures |r.runs| == |a.runs| + 1 && r.runs[..|a.runs|] == a.runs
    ensures r.runs[|a.runs|] == Loader.Start(|keys|)
    ensures r.sounds == a.sounds + (set k | k in keys)
    ensures r.loaded == a.loaded && r.interacted == a.interacted && r.queued == a.queued
  {
    var run := Loader.Start(|keys|);
    if |keys| == 0 then a.(runs := a.runs + [run])
    else a.(sounds := a.sounds + (set k | k in keys), runs := a.runs + [run])
  }

  /** `loadAll()` on the catalog. */
  function LoadAll(a: Audio): (r: Audio)
    ensures r.sounds == a.sounds + Catalog.KeySet
    ensures r.runs == a.runs + [Loader.Start(|Catalog.SoundKeys|)]
    ensures r.loaded == a.loaded && r.interacted == a.interacted && r.queued == a.queued
  {
    var r := LoadKeys(a, Catalog.SoundKeys);
    assert r.runs == r.runs[..|a.runs|] + [r.runs[|a.runs|]];
    r
  }

  /** One `onload` or `onloaderror` callback of run `run`: the two are the
      same apart from logging. `isLoaded` becomes true when this callback
      brings the run's counter to its total, and is never reset. */
  function OnLoadSettled(a: Audio, run: nat): (r: Audio)
    requires run < |a.runs|
    ensures |r.runs| == |a.runs|
    ensures r.runs[run].count == a.runs[run].count + 1
    ensures r.runs[run].total == a.runs[run].total
    ensures forall i :: 0 <= i < |a.runs| && i != run ==> r.runs[i] == a.runs[i]
    ensures r.loaded <==> a.loaded || a.runs[run].count + 1 == a.runs[run].total
    ensures r.sounds == a.sounds && r.interacted == a.interacted && r.queued == a.queued
  {
    var (run', reached) := Loader.Settle(a.runs[run]);
    var a' := a.(runs := a.runs[run := run']);
    if reached then a'.(loaded := true) else a'
  }

  // ------------------------------------------------------------- stopping

  /** `stop(id)`: a no-op unless loaded and a Howl exists for the id. */
  function Stop(a: Audio, id: string): (effects: seq<Engine.Effect>)
    ensures |effects| <= 1
    ensures effects != [] <==> Ready(a, id)
    ensures forall e :: e in effects ==> e == Engine.Stop(id)
  {
    if Ready(a, id) then [Engine.Stop(id)] else []
  }

  /** `stopAll()`. */
  function StopAll(): (effects: seq<Engine.Effect>)
    ensures effects == [Engine.StopAll]
  {
    [Engine.StopAll]
  }

  /** `stopSound` applied to each of `keys` that follows the voice-prompt
      naming convention: it stops a key whenever a Howl exists for it,
      loaded or not. */
  function StopVoiceKeys(keys: seq<string>, sounds: set<string>): (effects: seq<Engine.Effect>)
    ensures |effects| <= |keys|
    ensures forall e :: e in effects <==>
      e.Stop? && e.id in keys && Catalog.IsVoicePromptKey(e.id) && e.id in sounds
  {
    if keys == [] then []
    else
      var k := keys[0];
      var rest := StopVoiceKeys(keys[1..], sounds);
      assert forall x :: x in keys <==> x == k || x in keys[1..];
      if Catalog.IsVoicePromptKey(k) && k in sounds then [Engine.Stop(k)] + rest else rest
  }

  /** `stopAllVoicePrompts()`: stops exactly the catalog keys starting with
      `prompt_` or `correct_answer_` that have a Howl, and nothing else. */
  function StopAllVoicePrompts(a: Audio): (effects: seq<Engine.Effect>)
    ensures forall e :: e in effects <==>
      e.Stop? && e.id in Catalog.SoundKeys && Catalog.IsVoicePromptKey(e.id) && e.id in a.sounds
  {
    StopVoiceKeys(Catalog.SoundKeys, a.sounds)
  }

  // ---------------------------------------------------- identifier builders

  /** The value of `Math.floor(Math.random() * 4) + 1`. */
  type AnswerIndex = k: int | 1 <= k <= 4 witness 1

  /** `correct_answer_${k}`. */
  function CorrectAnswerId(k: AnswerIndex): (id: string)
    ensures id == Catalog.SoundKeys[3 + k]
    ensures Catalog.IsVoicePromptKey(id)
  {
    var id := "correct_answer_" + Digit(k);
    assert StartsWith(id, "correct_answer_") by { StartsWithAppend("correct_answer_", Digit(k)); }
    if k == 1 then assert id == Catalog.SoundKeys[4]; id
    else if k == 2 then assert id == Catalog.SoundKeys[5]; id
    else if k == 3 then assert id == Catalog.SoundKeys[6]; id
    else assert id == Catalog.SoundKeys[7]; id
  }

  /** `playCorrectAnswer()` with the random draw passed in. */
  function PlayCorrectAnswer(a: Audio, k: AnswerIndex, answer: Option<Engine.Token>): (r: Step)
    ensures r.effects == [] || r.effects == [Engine.Play(CorrectAnswerId(k))]
    ensures a.loaded && a.interacted && Catalog.KeySet <= a.sounds ==>
      r == Step(a, [Engine.Play(CorrectAnswerId(k))])
    ensures r.effects != [] <==> Ready(a, CorrectAnswerId(k)) && a.interacted
    ensures r.audio.queued == a.queued || r.audio.queued == Some(CorrectAnswerId(k))
    ensures Truthy(a.queued) ==> r.audio.queued == a.queued
    ensures r.audio == a.(queued := r.audio.queued)
    ensures !a.interacted ==> r.effects == [] && r.audio.interacted == a.interacted
  {
    var p := Play(a, CorrectAnswerId(k), answer);
    Step(p.audio, p.effects)
  }

  /** The `type` argument of `playPrompt`. */
  datatype PromptKind = Less | More {
    function Name(): string
    {
      match this
      case Less => "less"
      case More => "more"
    }
  }

  /** `prompt_${type}_${animal}`. */
  function PromptId(kind: PromptKind, animal: string): (id: string)
    ensures Catalog.IsVoicePromptKey(id)
    ensures |id| == 12 + |animal| && id[12..] == animal
  {
    var id := "prompt_" + kind.Name() + "_" + animal;
    assert StartsWith(id, "prompt_") by {
      assert id == "prompt_" + (kind.Name() + "_" + animal);
      StartsWithAppend("prompt_", kind.Name() + "_" + animal);
    }
    id
  }

  /** Reads a prompt id back into its parts: the inverse of `PromptId`. */
  function ParsePromptId(id: string): (r: Option<(PromptKind, string)>)
    ensures r.Some? ==> PromptId(r.value.0, r.value.1) == id
  {
    if StartsWith(id, "prompt_less_") then Some((Less, id[12..]))
    else if StartsWith(id, "prompt_more_") then Some((More, id[12..]))
    else None
  }

  /** `playPrompt(type, animal)`. */
  function PlayPrompt(a: Audio, kind: PromptKind, animal: string, answer: Option<Engine.Token>): (r: Step)
    ensures r.effects == [] || r.effects == [Engine.Play(PromptId(kind, animal))]
    ensures r.effects != [] <==> Ready(a, PromptId(kind, animal)) && a.interacted
    ensures r.audio.queued == a.queued || r.audio.queued == Some(PromptId(kind, animal))
    ensures Truthy(a.queued) ==> r.audio.queued == a.queued
    ensures r.audio == a.(queued := r.audio.queued)
  {
    var p := Play(a, PromptId(kind, animal), answer);
    Step(p.audio, p.effects)
  }
}

=== FILE: audio_manager_lemmas.dfy ===
/** Properties of the gesture/readiness gate that relate several calls:
    the invariant every operation keeps, first-writer-wins over any
    sequence of early `play` calls, exactly-once delivery of the deferred
    sound, and the completion rule of `loadAll`. */
module AudioManagerLemmas {
  import opened Wrappers
  import opened Text
  import Engine
  import Catalog
  import opened AudioManager

  // ------------------------------------------------ the invariant is kept

  lemma PlayKeepsValid(a: Audio, id: string, answer: Option<Engine.Token>)
    requires Valid(a)
    ensures Valid(Play(a, id, answer).audio)
  {
  }

  lemma UnlockKeepsValid(a: Audio)
    requires Valid(a)
    ensures Valid(Unlock(a).audio)
  {
  }

  lemma LoadAllKeepsValid(a: Audio)
    requires Valid(a)
    ensures Valid(LoadAll(a))
  {
  }

  lemma OnLoadSettledKeepsValid(a: Audio, run: nat)
    requires Valid(a) && run < |a.runs|
    ensures Valid(OnLoadSettled(a, run))
  {
  }

  // ------------------------------------------------------------ the gate

  /** After the first gesture nothing is ever deferred again. */
  lemma GestureEmptiesQueue(a: Audio)
    requires Valid(a) && a.interacted
    ensures a.queued == None
  {
  }

  /** `unlock` is idempotent: the second call plays nothing and changes
      nothing. */
  lemma UnlockIdempotent(a: Audio)
    ensures Unlock(Unlock(a).audio) == Step(Unlock(a).audio, [])
  {
  }

  /** The first gesture delivers a deferred sound exactly once: one engine
      play of that id and an empty slot. */
  lemma UnlockDeliversDeferred(a: Audio, q: string)
    requires Valid(a) && a.queued == Some(q)
    ensures Unlock(a).effects == [Engine.Play(q)]
    ensures Unlock(a).audio.queued == None
    ensures Unlock(Unlock(a).audio).effects == []
  {
  }

  /** `play` called for each of `ids` in turn; the effects of all calls
      are concatenated. */
  function PlayEach(a: Audio, ids: seq<string>, answer: Option<Engine.Token>): Step
    decreases |ids|
  {
    if ids == [] then Step(a, [])
    else
      var p := Play(a, ids[0], answer);
      var rest := PlayEach(p.audio, ids[1..], answer);
      Step(rest.audio, p.effects + rest.effects)
  }

  /** The first of `ids` that passes the readiness guard. */
  function FirstReady(a: Audio, ids: seq<string>): (r: Option<string>)
    ensures r.Some? ==> r.value in ids && Ready(a, r.value)
    ensures r.Some? ==> exists i :: 0 <= i < |ids| && ids[i] == r.value && forall j :: 0 <= j < i ==> !Ready(a, ids[j])
    ensures r.None? ==> forall i :: 0 <= i < |ids| ==> !Ready(a, ids[i])
  {
    if ids == [] then None
    else if Ready(a, ids[0]) then Some(ids[0])
    else
      var r := FirstReady(a, ids[1..]);
      if r.Some? then
        var i :| 0 <= i < |ids[1..]| && ids[1..][i] == r.value && forall j :: 0 <= j < i ==> !Ready(a, ids[1..][j]);
        assert ids[i + 1] == r.value && forall j :: 0 <= j < i + 1 ==> !Ready(a, ids[j]);
        r
      else r
  }

  /** Before the first gesture, only the first ready id of any sequence of
      `play` calls is deferred; every later one is dropped, an id already
      deferred is never replaced, and nothing reaches the engine. */
  lemma {:induction false} FirstWriterWins(a: Audio, ids: seq<string>, answer: Option<Engine.Token>)
    requires Valid(a) && !a.interacted
    ensures PlayEach(a, ids, answer).effects == []
    ensures PlayEach(a, ids, answer).audio.queued ==
      (if a.queued.Some? then a.queued else FirstReady(a, ids))
    ensures Valid(PlayEach(a, ids, answer).audio)
    decreases |ids|
  {
    if ids != [] {
      var p := Play(a, ids[0], answer);
      PlayKeepsValid(a, ids[0], answer);
      if Ready(a, ids[0]) {
        NoEmptyReadyKey(a, ids[0]);
      }
      FirstWriterWins(p.audio, ids[1..], answer);
    }
  }

  /** A ready id is a catalog key, hence never the falsy empty string. */
  lemma NoEmptyReadyKey(a: Audio, id: string)
    requires Valid(a) && Ready(a, id)
    ensures id != "" && id in Catalog.SoundKeys
  {
  }

  // ------------------------------------------------------------ loading

  /** `k` callbacks of run `run`, whichever of `onload`/`onloaderror` each is. */
  function SettleRun(a: Audio, run: nat, k: nat): (r: Audio)
    requires run < |a.runs|
    ensures |r.runs| == |a.runs|
    decreases k
  {
    if k == 0 then a else SettleRun(OnLoadSettled(a, run), run, k - 1)
  }

  lemma {:induction false} SettleRunCounts(a: Audio, run: nat, k: nat)
    requires run < |a.runs|
    ensures SettleRun(a, run, k).runs[run].count == a.runs[run].count + k
    ensures SettleRun(a, run, k).runs[run].total == a.runs[run].total
    ensures SettleRun(a, run, k).sounds == a.sounds
    ensures SettleRun(a, run, k).loaded <==>
      a.loaded || a.runs[run].count < a.runs[run].total <= a.runs[run].count + k
    decreases k
  {
    if k > 0 {
      SettleRunCounts(OnLoadSettled(a, run), run, k - 1);
    }
  }

  /** From a manager that has never loaded, `loadAll` followed by `k`
      callbacks sets `isLoaded` exactly when all 25 catalog entries have
      reported, successes and failures alike; and every catalog key keeps
      its Howl, so a key whose load failed is still played after the
      gesture. */
  lemma LoadedExactlyWhenAllReported(a: Audio, k: nat)
    requires Valid(a) && !a.loaded
    ensures var r := SettleRun(LoadAll(a), |a.runs|, k);
      && (r.loaded <==> k >= |Catalog.SoundKeys|)
      && r.sounds == Catalog.KeySet
  {
    SettleRunCounts(LoadAll(a), |a.runs|, k);
  }

  /** Once loaded, a manager stays loaded under every operation. */
  lemma LoadedNeverReverts(a: Audio, id: string, answer: Option<Engine.Token>, run: nat)
    requires a.loaded && run < |a.runs|
    ensures Play(a, id, answer).audio.loaded
    ensures Unlock(a).audio.loaded
    ensures LoadAll(a).loaded
    ensures OnLoadSettled(a, run).loaded
  {
  }

  /** After the gesture and the load, every catalog key plays through the
      engine, whether its own load succeeded or failed. */
  lemma EveryCatalogKeyPlays(a: Audio, id: string, answer: Option<Engine.Token>)
    requires Valid(a) && a.loaded && a.interacted && id in Catalog.SoundKeys
    ensures Play(a, id, answer) == Played(a, [Engine.Play(id)], answer)
  {
  }

  // ------------------------------------------------- identifier builders

  /** `ParsePromptId` undoes `PromptId`. */
  lemma PromptIdRoundTrip(kind: PromptKind, animal: string)
    ensures ParsePromptId(PromptId(kind, animal)) == Some((kind, animal))
  {
    var id := PromptId(kind, animal);
    if kind == Less {
      assert id == "prompt_less_" + animal;
      StartsWithAppend("prompt_less_", animal);
    } else {
      assert id == "prompt_more_" + animal;
      StartsWithAppend("prompt_more_", animal);
      assert !StartsWith(id, "prompt_less_") by {
        assert id[7] == 'm';
      }
    }
  }

  /** Different `playPrompt` arguments request different ids. */
  lemma PromptIdInjective(k1: PromptKind, a1: string, k2: PromptKind, a2: string)
    requires PromptId(k1, a1) == PromptId(k2, a2)
    ensures k1 == k2 && a1 == a2
  {
    PromptIdRoundTrip(k1, a1);
    PromptIdRoundTrip(k2, a2);
  }

  /** The animals of the catalog's prompt entries. */
  const Animals: seq<string> := ["cat", "chicken", "cow", "dog", "dolphin", "monkey", "turtle"]

  lemma LessPromptsInCatalog(animal: string)
    requires animal in Animals
    ensures PromptId(Less, animal) in Catalog.SoundKeys
  {
    var id := PromptId(Less, animal);
    assert id == "prompt_less_" + animal;
    if animal == "cat" { assert id == Catalog.SoundKeys[8]; }
    else if animal == "chicken" { assert id == Catalog.SoundKeys[10]; }
    else if animal == "cow" { assert id == Catalog.SoundKeys[12]; }
    else if animal == "dog" { assert id == Catalog.SoundKeys[14]; }
    else if animal == "dolphin" { assert id == Catalog.SoundKeys[16]; }
    else if animal == "monkey" { assert id == Catalog.SoundKeys[18]; }
    else { assert id == Catalog.SoundKeys[20]; }
  }

  lemma MorePromptsInCatalog(animal: string)
    requires animal in Animals
    ensures PromptId(More, animal) in Catalog.SoundKeys
  {
    var id := PromptId(More, animal);
    assert id == "prompt_more_" + animal;
    if animal == "cat" { assert id == Catalog.SoundKeys[9]; }
    else if animal == "chicken" { assert id == Catalog.SoundKeys[11]; }
    else if animal == "cow" { assert id == Catalog.SoundKeys[13]; }
    else if animal == "dog" { assert id == Catalog.SoundKeys[15]; }
    else if animal == "dolphin" { assert id == Catalog.SoundKeys[17]; }
    else if animal == "monkey" { assert id == Catalog.SoundKeys[19]; }
    else { assert id == Catalog.SoundKeys[21]; }
  }

  /** Each prompt the game can ask for with a catalog animal has an entry,
      so `play` finds it and `stopAllVoicePrompts` reaches it. */
  lemma PromptIdsInCatalog(kind: PromptKind, animal: string)
    requires animal in Animals
    ensures PromptId(kind, animal) in Catalog.SoundKeys
  {
    if kind == Less { LessPromptsInCatalog(animal); } else { MorePromptsInCatalog(animal); }
  }

  /** The four draws of `playCorrectAnswer` name four different entries. */
  lemma CorrectAnswerIdsDistinct(k1: AnswerIndex, k2: AnswerIndex)
    requires k1 != k2
    ensures CorrectAnswerId(k1) != CorrectAnswerId(k2)
  {
    assert CorrectAnswerId(k1)[15] != CorrectAnswerId(k2)[15];
  }

  /** Every catalog voice-prompt key is stopped by `stopAllVoicePrompts`
      once loading has started, and so is each `playCorrectAnswer` id. */
  lemma StopAllVoicePromptsCoversCorrectAnswers(a: Audio, k: AnswerIndex)
    requires Valid(a) && |a.runs| > 0
    ensures Engine.Stop(CorrectAnswerId(k)) in StopAllVoicePrompts(a)
  {
  }
}

=== FILE: catalog.dfy ===
/** The sound catalog (`SOUND_MAP`). Only its key set and key order matter
    to the gate and the arbiter: file paths and volumes are configuration
    data and are not modelled. */
module Catalog {
  import opened Text

  /** `Object.keys(SOUND_MAP)`, in declaration order. */
  const SoundKeys: seq<string> := [
    "sfx-correct", "sfx-wrong", "sfx-click", "voice-rotate",
    "correct_answer_1", "correct_answer_2", "correct_answer_3", "correct_answer_4",
    "prompt_less_cat", "prompt_more_cat", "prompt_less_chicken", "prompt_more_chicken",
    "prompt_less_cow", "prompt_more_cow", "prompt_less_dog", "prompt_more_dog",
    "prompt_less_dolphin", "prompt_more_dolphin", "prompt_less_monkey", "prompt_more_monkey",
    "prompt_less_turtle", "prompt_more_turtle",
    "complete", "fireworks", "applause"
  ]

  /** The rotate-prompt voice, the one id the orientation lock lets through. */
  const VoiceRotate: string := "voice-rotate"

  /** The naming convention `stopAllVoicePrompts` filters on. */
  predicate IsVoicePromptKey(key: string)
  {
    StartsWith(key, "prompt_") || StartsWith(key, "correct_answer_")
  }

  /** The keys that get a Howl once `loadAll` has run. */
  const KeySet: set<string> := set k | k in SoundKeys

  /** The keys of `SOUND_MAP` are distinct. */
  lemma KeysDistinct()
    ensures forall i, j :: 0 <= i < j < |SoundKeys| ==> SoundKeys[i] != SoundKeys[j]
  {
  }

  /** A sequence without repeats has as many distinct elements as entries. */
  lemma {:induction false} DistinctCard(s: seq<string>)
    requires forall i, j :: 0 <= i < j < |s| ==> s[i] != s[j]
    ensures |(set k | k in s)| == |s|
  {
    if s != [] {
      DistinctCard(s[1..]);
      assert (set k | k in s) == {s[0]} + (set k | k in s[1..]);
      assert s[0] !in (set k | k in s[1..]);
    }
  }

  /** `total` in `loadAll` is the number of Howls it creates: 25. */
  lemma HowlCount()
    ensures |KeySet| == |SoundKeys| == 25
  {
    KeysDistinct();
    DistinctCard(SoundKeys);
  }
}

=== FILE: engine.dfy ===
/** The playback engine (Howler) seen from the outside. Nothing of its
    internals is modelled: the manager asks it to play or stop and records
    those requests as effects; what `play()` answers is supplied by the
    caller of each transition as an oracle value. */
module Engine {

  /** The per-play instance id Howler's `play()` hands back. */
  type Token = int

  /** One request issued to the engine.
      - `Play(id)`: `sounds[id].play()`
      - `Stop(id)`: `sounds[id].stop()`
      - `StopAll`: `Howler.stop()` */
  datatype Effect = Play(id: string) | Stop(id: string) | StopAll
}

=== FILE: loader.dfy ===
/** The completion counter inside `loadAll`. One call of `loadAll` starts a
    run over `total` keys; every `onload` and every `onloaderror` callback of
    that run bumps the same counter, and the promise resolves when the
    counter equals `total`. */
module Loader {

  /** The closure state of one `loadAll` call. */
  datatype Run = Run(total: nat, count: nat, resolved: bool)

  /** Entering `loadAll` with `keyCount` keys. With no keys the promise
      resolves at once. */
  function Start(keyCount: nat): (r: Run)
    ensures r.total == keyCount && r.count == 0
    ensures r.resolved <==> keyCount == 0
  {
    Run(keyCount, 0, keyCount == 0)
  }

  /** One `onload` or `onloaderror` callback. `reached` is true when this
      callback is the one that brings the counter to `total`, i.e. when the
      `loadedCount === total` branch is taken. */
  function Settle(r: Run): (result: (Run, bool))
    ensures result.0.total == r.total && result.0.count == r.count + 1
    ensures result.1 <==> r.count + 1 == r.total
    ensures result.0.resolved <==> r.resolved || result.1
  {
    var count := r.count + 1;
    var reached := count == r.total;
    (Run(r.total, count, r.resolved || reached), reached)
  }

  /** `k` callbacks of one run, in arrival order. */
  function SettleTimes(r: Run, k: nat): Run
    decreases k
  {
    if k == 0 then r else SettleTimes(Settle(r).0, k - 1)
  }

  /** A well-formed run: resolved exactly when the counter has reached the
      total at some point (the counter only grows, so "at some point" is
      `count >= total`). */
  predicate Consistent(r: Run)
  {
    r.resolved <==> r.count >= r.total
  }

  lemma {:induction false} SettleTimesCounts(r: Run, k: nat)
    requires Consistent(r)
    ensures SettleTimes(r, k).total == r.total
    ensures SettleTimes(r, k).count == r.count + k
    ensures Consistent(SettleTimes(r, k))
    decreases k
  {
    if k > 0 {
      SettleTimesCounts(Settle(r).0, k - 1);
    }
  }

  /** A fresh run of `n` keys resolves after exactly `n` callbacks, never
      earlier, and stays resolved afterwards. */
  lemma ResolvesExactlyAtTotal(n: nat, k: nat)
    ensures SettleTimes(Start(n), k).count == k
    ensures SettleTimes(Start(n), k).resolved <==> k >= n
  {
    SettleTimesCounts(Start(n), k);
  }

  /** The `loadedCount === total` branch is taken by at most one callback of
      a run: exactly the `total`-th one. */
  lemma ReachedOnlyOnce(n: nat, k: nat)
    ensures Settle(SettleTimes(Start(n), k)).1 <==> k + 1 == n
  {
    SettleTimesCounts(Start(n), k);
  }
}

=== FILE: rotate_orientation.dfy ===
/** The voice arbiter (`playVoiceLocked`) and the orientation lock built on
    top of it. The module-level variables of the source (`currentVoiceKey`,
    `isRotateOverlayActive`, `globalBlockListenersAttached`) form `Voice`;
    together with the `AudioManager` singleton they form the `World` every
    transition reads and rebuilds. */
module RotateOrientation {
  import opened Wrappers
  import opened Text
  import Engine
  import Catalog
  import AudioManager

  /** `rotateConfig.breakpoint`: the widest viewport that counts as a phone. */
  const Breakpoint: int := 768

  /** The arbiter's own variables.
      - `current`: `currentVoiceKey`
      - `overlayActive`: `isRotateOverlayActive`, i.e. the lock
      - `listenersAttached`: `globalBlockListenersAttached` */
  datatype Voice = Voice(current: Option<string>, overlayActive: bool, listenersAttached: bool)

  datatype World = World(audio: AudioManager.Audio, voice: Voice)

  /** The page as it is before anything has run. */
  const Initial: World := World(AudioManager.Initial, Voice(None, false, false))

  /** The new world after a transition and the engine requests it issued. */
  datatype Outcome = Outcome(world: World, effects: seq<Engine.Effect>)

  /** The manager is valid and a current voice was really played: after
      the gesture, through the gate. */
  predicate PlayedThroughGate(w: World)
  {
    && AudioManager.Valid(w.audio)
    && (w.voice.current.Some? ==>
          Truthy(w.voice.current) && AudioManager.Ready(w.audio, w.voice.current.value)
          && w.audio.interacted)
  }

  /** What every reachable world satisfies. */
  predicate Valid(w: World)
  {
    && PlayedThroughGate(w)
    // locked => the only voice that can be current is the rotate prompt
    && (w.voice.overlayActive ==> w.voice.current == None || w.voice.current == Some(Catalog.VoiceRotate))
    // the overlay is only ever shown by a hint update, and those run only
    // once init has installed the block handler
    && (w.voice.overlayActive ==> w.voice.listenersAttached)
  }

  lemma InitialValid()
    ensures Valid(Initial)
  {
  }

  // ------------------------------------------------------------ priorities

  /** `getVoicePriority(key)`. */
  function GetVoicePriority(key: string): (p: int)
    ensures 1 <= p <= 4
    ensures StartsWith(key, "drag_") || StartsWith(key, "q_") ==> p == 1
    ensures p == 2 <==> key == "voice_need_finish"
    ensures p == 3 <==> key == "sfx_correct" || key == "sfx_wrong"
    ensures p == 4 <==>
      key == "voice_complete" || key == "voice_intro" || key == "voice_end" || key == Catalog.VoiceRotate
  {
    if StartsWith(key, "drag_") || StartsWith(key, "q_") then
      // every named key starts with 'v' or 's', so none is a prefixed one
      assert key[0] == 'd' || key[0] == 'q' by {
        if StartsWith(key, "drag_") { StartsWithHead(key, "drag_"); } else { StartsWithHead(key, "q_"); }
      }
      1
    else if key == "voice_need_finish" then 2
    else if key == "sfx_correct" || key == "sfx_wrong" then 3
    else if key == "voice_complete" || key == "voice_intro" || key == "voice_end" || key == "voice-rotate" then 4
    else 1
  }

  // ------------------------------------------------------------ the arbiter

  /** `playVoiceLocked(_, key)`. `answer` is what the engine's `play()`
      returns if the manager gets as far as calling it. */
  function PlayVoiceLocked(w: World, key: string, answer: Option<Engine.Token>): (o: Outcome)
    // locked: every key but the rotate prompt is dropped
    ensures w.voice.overlayActive && key != Catalog.VoiceRotate ==> o == Outcome(w, [])
    // the rotate prompt: stop everything, forget the current voice, play
    ensures key == Catalog.VoiceRotate ==>
      var p := AudioManager.Play(w.audio, key, answer);
      && o.effects == AudioManager.StopAll() + AudioManager.StopAllVoicePrompts(w.audio) + p.effects
      && o.world.audio == p.audio
      && o.world.voice == w.voice.(current := if p.token.Some? then Some(key) else None)
    // a repeat of the current voice is not restarted
    ensures key != Catalog.VoiceRotate && w.voice.current == Some(key) ==> o == Outcome(w, [])
    // an at-least-as-important current voice is not pre-empted
    ensures (key != Catalog.VoiceRotate && Truthy(w.voice.current)
             && GetVoicePriority(w.voice.current.value) >= GetVoicePriority(key)) ==> o == Outcome(w, [])
    // otherwise: stop the current voice first, then the new one becomes
    // current exactly when the engine handed back a token
    ensures (key != Catalog.VoiceRotate && !w.voice.overlayActive && w.voice.current != Some(key)
             && (Truthy(w.voice.current) ==> GetVoicePriority(w.voice.current.value) < GetVoicePriority(key))) ==>
      var p := AudioManager.Play(w.audio, key, answer);
      var stop := if Truthy(w.voice.current) then AudioManager.Stop(w.audio, w.voice.current.value) else [];
      && o.effects == stop + p.effects
      && o.world.audio == p.audio
      && o.world.voice.overlayActive == w.voice.overlayActive
      && o.world.voice.listenersAttached == w.voice.listenersAttached
      && (o.world.voice.current == Some(key) <==> p.token.Some?)
      && (p.token.None? ==> !Truthy(o.world.voice.current))
  {
    if w.voice.overlayActive && key != Catalog.VoiceRotate then Outcome(w, [])
    else if key == Catalog.VoiceRotate then
      var stops := AudioManager.StopAll() + AudioManager.StopAllVoicePrompts(w.audio);
      var p := AudioManager.Play(w.audio, key, answer);
      var current := if p.token.Some? then Some(key) else None;
      Outcome(World(p.audio, w.voice.(current := current)), stops + p.effects)
    else
      var newPri := GetVoicePriority(key);
      var curPri := if Truthy(w.voice.current) then GetVoicePriority(w.voice.current.value) else 0;
      if w.voice.current == Some(key) then Outcome(w, [])
      else if Truthy(w.voice.current) && curPri >= newPri then Outcome(w, [])
      else
        var stop := if Truthy(w.voice.current) then AudioManager.Stop(w.audio, w.voice.current.value) else [];
        var cleared := if Truthy(w.voice.current) then None else w.voice.current;
        var p := AudioManager.Play(w.audio, key, answer);
        var current := if p.token.Some? then Some(key) else cleared;
        Outcome(World(p.audio, w.voice.(current := current)), stop + p.effects)
  }

  // ---------------------------------------------------- the orientation lock

  /** `shouldShow`: portrait and narrower than the breakpoint. */
  predicate ShouldLock(width: int, height: int)
  {
    height > width && width < Breakpoint
  }

  /** `updateRotateHint()` for a viewport of `width` x `height`. */
  function UpdateRotateHint(w: World, width: int, height: int, answer: Option<Engine.Token>): (o: Outcome)
    ensures o.world.voice.overlayActive == ShouldLock(width, height)
    ensures o.world.voice.listenersAttached == w.voice.listenersAttached
    // no transition: no audio effect and nothing else changes
    ensures w.voice.overlayActive == ShouldLock(width, height) ==> o == Outcome(w, [])
    // UNLOCKED -> LOCKED: stop everything, then request the rotate prompt
    ensures !w.voice.overlayActive && ShouldLock(width, height) ==>
      var locked := w.(voice := w.voice.(overlayActive := true));
      var r := PlayVoiceLocked(locked, Catalog.VoiceRotate, answer);
      o.effects == AudioManager.StopAll() + AudioManager.StopAllVoicePrompts(w.audio) + r.effects
      && o.world == r.world
    // LOCKED -> UNLOCKED: only a current rotate prompt is stopped and forgotten
    ensures w.voice.overlayActive && !ShouldLock(width, height) ==>
      && o.world.audio == w.audio
      && (w.voice.current == Some(Catalog.VoiceRotate) ==>
            o.effects == AudioManager.Stop(w.audio, Catalog.VoiceRotate) && o.world.voice.current == None)
      && (w.voice.current != Some(Catalog.VoiceRotate) ==>
            o.effects == [] && o.world.voice.current == w.voice.current)
  {
    var show := ShouldLock(width, height);
    var wasActive := w.voice.overlayActive;
    var w1 := w.(voice := w.voice.(overlayActive := show));
    if !wasActive && show then
      var stops := AudioManager.StopAll() + AudioManager.StopAllVoicePrompts(w1.audio);
      var r := PlayVoiceLocked(w1, Catalog.VoiceRotate, answer);
      Outcome(r.world, stops + r.effects)
    else if wasActive && !show && w1.voice.current == Some(Catalog.VoiceRotate) then
      Outcome(w1.(voice := w1.voice.(current := None)), AudioManager.Stop(w1.audio, Catalog.VoiceRotate))
    else
      Outcome(w1, [])
  }

  // ------------------------------------------------- the global input block

  /** `attachGlobalBlockInputListeners()`: installs the handler once; a
      second call installs nothing more. */
  function AttachGlobalBlockInputListeners(w: World): (r: World)
    ensures r.voice.listenersAttached
    ensures w.voice.listenersAttached ==> r == w
    ensures r.audio == w.audio && r.voice.current == w.voice.current
    ensures r.voice.overlayActive == w.voice.overlayActive
  {
    if w.voice.listenersAttached then w
    else w.(voice := w.voice.(listenersAttached := true))
  }

  /** The installed capture-phase handler, for any of its seven event types:
      nothing while unlocked, a rotate-prompt request while locked. */
  function BlockHandler(w: World, answer: Option<Engine.Token>): (o: Outcome)
    ensures !w.voice.overlayActive ==> o == Outcome(w, [])
    ensures w.voice.overlayActive ==> o == PlayVoiceLocked(w, Catalog.VoiceRotate, answer)
  {
    if !w.voice.overlayActive then Outcome(w, [])
    else PlayVoiceLocked(w, Catalog.VoiceRotate, answer)
  }

  /** `initRotateOrientation(game)`: install the handler, then evaluate the
      viewport once. */
  function InitRotateOrientation(w: World, width: int, height: int, answer: Option<Engine.Token>): (o: Outcome)
    ensures o.world.voice.listenersAttached
    ensures o.world.voice.overlayActive == ShouldLock(width, height)
    // no transition: nothing is stopped or requested
    ensures w.voice.overlayActive == ShouldLock(width, height) ==>
      o.effects == [] && o.world.audio == w.audio && o.world.voice.current == w.voice.current
    // a portrait start stops everything and requests the rotate prompt
    ensures !w.voice.overlayActive && ShouldLock(width, height) ==>
      && |o.effects| > 0 && o.effects[0] == Engine.StopAll
      && (o.world.voice.current == Some(Catalog.VoiceRotate) <==> AudioManager.Play(w.audio, Catalog.VoiceRotate, answer).token.Some?)
      && (o.world.voice.current != Some(Catalog.VoiceRotate) ==> o.world.voice.current == None)
  {
    UpdateRotateHint(AttachGlobalBlockInputListeners(w), width, height, answer)
  }
}

=== FILE: rotate_orientation_lemmas.dfy ===
/** Properties of the voice arbiter and the orientation lock: the world
    invariant (in particular "locked implies the current voice is the rotate
    prompt or nothing") is kept by every transition, the priority chain
    agrees with the tier table, pre-emption is strict, and the rotate prompt
    always restarts. */
module RotateOrientationLemmas {
  import opened Wrappers
  import Engine
  import Catalog
  import AudioManager
  import AudioManagerLemmas
  import VoiceTiers
  import opened RotateOrientation

  // ------------------------------------------------ the invariant is kept

  lemma PlayVoiceLockedKeepsValid(w: World, key: string, answer: Option<Engine.Token>)
    requires Valid(w)
    ensures Valid(PlayVoiceLocked(w, key, answer).world)
  {
    AudioManagerLemmas.PlayKeepsValid(w.audio, key, answer);
    var p := AudioManager.Play(w.audio, key, answer);
    if p.token.Some? {
      assert AudioManager.Ready(w.audio, key) && w.audio.interacted;
      AudioManagerLemmas.NoEmptyReadyKey(w.audio, key);
    }
  }

  /** A rotate-prompt request repairs the lock clause whatever the current
      voice was, which is what makes it safe to lock first and request it
      afterwards. */
  lemma RotateRequestRestoresValid(w: World, answer: Option<Engine.Token>)
    requires PlayedThroughGate(w) && (w.voice.overlayActive ==> w.voice.listenersAttached)
    ensures Valid(PlayVoiceLocked(w, Catalog.VoiceRotate, answer).world)
  {
  }

  /** `updateRotateHint` is private to its module; its two callers, init
      and the resize listeners init registers, both run after the block
      handler is installed. */
  lemma UpdateRotateHintKeepsValid(w: World, width: int, height: int, answer: Option<Engine.Token>)
    requires Valid(w) && w.voice.listenersAttached
    ensures Valid(UpdateRotateHint(w, width, height, answer).world)
  {
  }

  lemma BlockHandlerKeepsValid(w: World, answer: Option<Engine.Token>)
    requires Valid(w)
    ensures Valid(BlockHandler(w, answer).world)
  {
  }

  // ------------------------------------------------------------ priorities

  /** The chain of string tests in `getVoicePriority` is the tier table. */
  lemma PriorityFollowsTierTable(key: string)
    ensures GetVoicePriority(key) == VoiceTiers.TierOf(key).Rank()
  {
  }

  /** In this catalog the tier table only ever meets tier 1 and the rotate
      prompt: the feedback keys are spelled `sfx-correct`/`sfx-wrong` in the
      catalog but `sfx_correct`/`sfx_wrong` in the table. */
  lemma CatalogTiers(key: string)
    requires key in Catalog.SoundKeys
    ensures GetVoicePriority(key) == (if key == Catalog.VoiceRotate then 4 else 1)
  {
  }

  lemma FeedbackSpelling()
    ensures GetVoicePriority("sfx-correct") == 1 && GetVoicePriority("sfx-wrong") == 1
    ensures GetVoicePriority("sfx_correct") == 3 && GetVoicePriority("sfx_wrong") == 3
  {
  }

  // ----------------------------------------------------------- pre-emption

  /** With `b` current and unlocked, a strictly more important `a` stops
      `b` and, when the engine plays it, becomes current; the less important
      `b` requested while `a` is current changes nothing. This is the
      arbiter's rule for a sound set that holds a key of tier 2 to 4 besides
      the rotate prompt; this catalog holds none, so no reachable world meets
      the requires (see `PreemptionOnlyClears` for what happens there). */
  lemma StrictPreemption(w: World, a: string, b: string, answer: Option<Engine.Token>)
    requires !w.voice.overlayActive && w.voice.current == Some(b) && b != ""
    requires a != Catalog.VoiceRotate
    requires GetVoicePriority(a) > GetVoicePriority(b)
    requires AudioManager.Ready(w.audio, a) && AudioManager.Ready(w.audio, b) && w.audio.interacted
    requires answer.Some?
    ensures PlayVoiceLocked(w, a, answer).effects == [Engine.Stop(b), Engine.Play(a)]
    ensures PlayVoiceLocked(w, a, answer).world.voice.current == Some(a)
    ensures var w' := PlayVoiceLocked(w, a, answer).world;
      PlayVoiceLocked(w', b, answer) == Outcome(w', [])
  {
  }

  /** In a reachable unlocked world, a request that outranks the current
      voice can only name a key outside the catalog: the current voice is
      stopped and forgotten, and since the new key has no Howl nothing is
      played and no voice is current afterwards. */
  lemma PreemptionOnlyClears(w: World, key: string, answer: Option<Engine.Token>)
    requires Valid(w) && !w.voice.overlayActive && key != Catalog.VoiceRotate
    requires w.voice.current.Some? && w.voice.current.value != key
    requires GetVoicePriority(key) > GetVoicePriority(w.voice.current.value)
    ensures PlayVoiceLocked(w, key, answer).effects == [Engine.Stop(w.voice.current.value)]
    ensures PlayVoiceLocked(w, key, answer).world.voice.current == None
  {
    if AudioManager.Ready(w.audio, key) {
      // a catalog key other than the rotate prompt cannot outrank anything
      AudioManagerLemmas.NoEmptyReadyKey(w.audio, key);
      CatalogTiers(key);
    }
  }

  /** Asking again for the voice that is current (other than the rotate
      prompt) neither stops nor restarts it. */
  lemma RepeatIsNoop(w: World, key: string, answer: Option<Engine.Token>)
    requires key != Catalog.VoiceRotate && w.voice.current == Some(key)
    ensures PlayVoiceLocked(w, key, answer) == Outcome(w, [])
  {
  }

  /** Once a catalog voice other than the rotate prompt is current, every
      other non-rotate catalog request is rejected until something clears
      it: all such keys share tier 1 and nothing clears the current voice
      when it finishes playing. */
  lemma CatalogVoiceHoldsTheSlot(w: World, key: string, answer: Option<Engine.Token>)
    requires Valid(w) && w.voice.current.Some? && w.voice.current.value != Catalog.VoiceRotate
    requires key in Catalog.SoundKeys && key != Catalog.VoiceRotate
    ensures PlayVoiceLocked(w, key, answer) == Outcome(w, [])
  {
    AudioManagerLemmas.NoEmptyReadyKey(w.audio, w.voice.current.value);
    CatalogTiers(w.voice.current.value);
    CatalogTiers(key);
  }

  /** The rotate prompt restarts even when it is already current: all
      sound is stopped first and the engine is asked to play it again. */
  lemma RotateAlwaysRestarts(w: World, answer: Option<Engine.Token>)
    requires Valid(w) && w.voice.current == Some(Catalog.VoiceRotate)
    ensures var o := PlayVoiceLocked(w, Catalog.VoiceRotate, answer);
      && o.effects[0] == Engine.StopAll
      && o.effects[|o.effects| - 1] == Engine.Play(Catalog.VoiceRotate)
      && (o.world.voice.current == Some(Catalog.VoiceRotate) <==> answer.Some?)
  {
  }

  // -------------------------------------------------------- the lock

  /** While locked, a request for any other key changes nothing. */
  lemma LockedRejectsOthers(w: World, key: string, answer: Option<Engine.Token>)
    requires Valid(w) && w.voice.overlayActive && key != Catalog.VoiceRotate
    ensures PlayVoiceLocked(w, key, answer) == Outcome(w, [])
    ensures w.voice.current == None || w.voice.current == Some(Catalog.VoiceRotate)
  {
  }

  /** Re-evaluating the same viewport is silent, so registering the resize
      listener more than once is harmless. */
  lemma UpdateRotateHintIdempotent(w: World, width: int, height: int, a1: Option<Engine.Token>, a2: Option<Engine.Token>)
    ensures var o := UpdateRotateHint(w, width, height, a1);
      UpdateRotateHint(o.world, width, height, a2) == Outcome(o.world, [])
  {
  }

  /** Locking from a loaded, gestured, unlocked world: every sound stops and
      the rotate prompt becomes current when the engine plays it. */
  lemma LockPlaysRotate(w: World, width: int, height: int, answer: Option<Engine.Token>)
    requires Valid(w) && !w.voice.overlayActive && ShouldLock(width, height)
    requires w.audio.loaded && w.audio.interacted
    ensures var o := UpdateRotateHint(w, width, height, answer);
      && o.effects[0] == Engine.StopAll
      && Engine.Play(Catalog.VoiceRotate) in o.effects
      && (o.world.voice.current == Some(Catalog.VoiceRotate) <==> answer.Some?)
  {
  }

  /** Holding a phone upright (375 x 667) locks; turning back to
      1024 x 768 unlocks. With a prompt playing before, locking stops all
      sound and plays the rotate prompt; unlocking stops the rotate prompt
      and leaves no current voice. */
  lemma PortraitPhoneScenario(w: World, prompt: string, t1: Engine.Token, t2: Engine.Token)
    requires Valid(w) && !w.voice.overlayActive && w.audio.interacted
    requires w.voice.current == Some(prompt)
    ensures var o1 := UpdateRotateHint(w, 375, 667, Some(t1));
      && o1.world.voice.overlayActive
      && o1.effects[0] == Engine.StopAll
      && o1.effects[|o1.effects| - 1] == Engine.Play(Catalog.VoiceRotate)
      && o1.world.voice.current == Some(Catalog.VoiceRotate)
      && var o2 := UpdateRotateHint(o1.world, 1024, 768, Some(t2));
         && !o2.world.voice.overlayActive
         && o2.effects == [Engine.Stop(Catalog.VoiceRotate)]
         && o2.world.voice.current == None
  {
  }

  /** A second `attachGlobalBlockInputListeners` installs nothing more. */
  lemma AttachIdempotent(w: World)
    ensures AttachGlobalBlockInputListeners(AttachGlobalBlockInputListeners(w))
         == AttachGlobalBlockInputListeners(w)
  {
  }
}

=== FILE: system.dfy ===
/** The page as one event-driven state machine: every way the outside world
    can reach the gate, the arbiter or the lock is an `Event`, and `Run`
    folds a sequence of them. Events never interleave, so a trace is a plain
    sequence. */
module System {
  import opened Wrappers
  import Engine
  import Catalog
  import AudioManager
  import AudioManagerLemmas
  import opened RotateOrientation
  import RotateOrientationLemmas

  /** The seven input event types the block handler listens to. The first
      pointerdown, touchstart or click also reaches the `unlock` listener,
      which was registered earlier (when the manager was constructed) and so
      runs first. */
  datatype InputKind = PointerDown | PointerUp | Click | TouchStart | TouchEnd | MouseDown | MouseUp {
    predicate ReachesUnlock()
    {
      this == PointerDown || this == TouchStart || this == Click
    }
  }

  /** One thing that can happen to the page. `answer` is what the engine
      returns if this event makes it call `play()`. */
  datatype Event =
    | LoadAll                                  // a scene calls `loadAll()`
    | LoadSettled(run: nat)                    // an `onload`/`onloaderror` of that call
    | Input(kind: InputKind, answer: Option<Engine.Token>)
    | PlaySound(id: string, answer: Option<Engine.Token>)
    | StopSound(id: string)
    | StopEverything
    | StopVoicePrompts
    | CorrectAnswer(index: AudioManager.AnswerIndex, answer: Option<Engine.Token>)
    | Prompt(promptKind: AudioManager.PromptKind, animal: string, answer: Option<Engine.Token>)
    | RequestVoice(key: string, answer: Option<Engine.Token>)
    | Resize(width: int, height: int, answer: Option<Engine.Token>)
    | InitRotate(width: int, height: int, answer: Option<Engine.Token>)

  /** A manager-only transition lifted to the world. */
  function WithAudio(w: World, s: AudioManager.Step): (o: Outcome)
    ensures o.world.voice == w.voice && o.world.audio == s.audio && o.effects == s.effects
  {
    Outcome(w.(audio := s.audio), s.effects)
  }

  /** A physical input event: `unlock` first (for the three kinds it
      listens to), then the block handler if it has been installed. */
  function OnInput(w: World, kind: InputKind, answer: Option<Engine.Token>): (o: Outcome)
    ensures kind.ReachesUnlock() ==> o.world.audio.interacted
    ensures !w.voice.listenersAttached ==>
      o == (if kind.ReachesUnlock() then WithAudio(w, AudioManager.Unlock(w.audio)) else Outcome(w, []))
    ensures w.voice.listenersAttached && w.voice.overlayActive ==>
      var u := if kind.ReachesUnlock() then AudioManager.Unlock(w.audio) else AudioManager.Step(w.audio, []);
      var r := PlayVoiceLocked(w.(audio := u.audio), Catalog.VoiceRotate, answer);
      o == Outcome(r.world, u.effects + r.effects)
    ensures w.voice.listenersAttached && !w.voice.overlayActive ==>
      o == (if kind.ReachesUnlock() then WithAudio(w, AudioManager.Unlock(w.audio)) else Outcome(w, []))
  {
    var u := if kind.ReachesUnlock() then AudioManager.Unlock(w.audio) else AudioManager.Step(w.audio, []);
    var w1 := w.(audio := u.audio);
    var h := if w1.voice.listenersAttached then BlockHandler(w1, answer) else Outcome(w1, []);
    Outcome(h.world, u.effects + h.effects)
  }

  /** One event. The load flag, the gesture flag and the listeners flag
      never go back to false, and a resize before init changes nothing. */
  function Step(w: World, e: Event): (o: Outcome)
    ensures w.audio.loaded ==> o.world.audio.loaded
    ensures w.audio.interacted ==> o.world.audio.interacted
    ensures w.voice.listenersAttached ==> o.world.voice.listenersAttached
    // the overlay never comes up before the block handler that answers it
    ensures (w.voice.overlayActive ==> w.voice.listenersAttached) ==>
      (o.world.voice.overlayActive ==> o.world.voice.listenersAttached)
    ensures e.Resize? && !w.voice.listenersAttached ==> o == Outcome(w, [])
  {
    match e
    case LoadAll => WithAudio(w, AudioManager.Step(AudioManager.LoadAll(w.audio), []))
    case LoadSettled(run) =>
      // a callback only exists for a `loadAll` call that has happened
      if run < |w.audio.runs| then WithAudio(w, AudioManager.Step(AudioManager.OnLoadSettled(w.audio, run), []))
      else Outcome(w, [])
    case Input(kind, answer) => OnInput(w, kind, answer)
    case PlaySound(id, answer) =>
      var p := AudioManager.Play(w.audio, id, answer);
      WithAudio(w, AudioManager.Step(p.audio, p.effects))
    case StopSound(id) => Outcome(w, AudioManager.Stop(w.audio, id))
    case StopEverything => Outcome(w, AudioManager.StopAll())
    case StopVoicePrompts => Outcome(w, AudioManager.StopAllVoicePrompts(w.audio))
    case CorrectAnswer(k, answer) => WithAudio(w, AudioManager.PlayCorrectAnswer(w.audio, k, answer))
    case Prompt(kind, animal, answer) => WithAudio(w, AudioManager.PlayPrompt(w.audio, kind, animal, answer))
    case RequestVoice(key, answer) => PlayVoiceLocked(w, key, answer)
    case Resize(width, height, answer) =>
      // the resize and orientation listeners are registered by init, after
      // the block handler; before init a resize reaches no code here
      if w.voice.listenersAttached then UpdateRotateHint(w, width, height, answer) else Outcome(w, [])
    case InitRotate(width, height, answer) => InitRotateOrientation(w, width, height, answer)
  }

  /** A trace of events from `w`; the effects of all steps in order. */
  function Run(w: World, events: seq<Event>): Outcome
    decreases |events|
  {
    if events == [] then Outcome(w, [])
    else
      var o := Step(w, events[0]);
      var rest := Run(o.world, events[1..]);
      Outcome(rest.world, o.effects + rest.effects)
  }

  // ------------------------------------------------ the invariant is kept

  lemma OnInputKeepsValid(w: World, kind: InputKind, answer: Option<Engine.Token>)
    requires Valid(w)
    ensures Valid(OnInput(w, kind, answer).world)
  {
  }

  lemma StepKeepsValid(w: World, e: Event)
    requires Valid(w)
    ensures Valid(Step(w, e).world)
  {
    match e
    case LoadAll =>
      AudioManagerLemmas.LoadAllKeepsValid(w.audio);
    case LoadSettled(run) =>
      if run < |w.audio.runs| {
        AudioManagerLemmas.OnLoadSettledKeepsValid(w.audio, run);
      }
    case Input(kind, answer) =>
      OnInputKeepsValid(w, kind, answer);
    case PlaySound(id, answer) =>
      AudioManagerLemmas.PlayKeepsValid(w.audio, id, answer);
    case StopSound(_) =>
    case StopEverything =>
    case StopVoicePrompts =>
    case CorrectAnswer(k, answer) =>
      AudioManagerLemmas.PlayKeepsValid(w.audio, AudioManager.CorrectAnswerId(k), answer);
    case Prompt(kind, animal, answer) =>
      AudioManagerLemmas.PlayKeepsValid(w.audio, AudioManager.PromptId(kind, animal), answer);
    case RequestVoice(key, answer) =>
      RotateOrientationLemmas.PlayVoiceLockedKeepsValid(w, key, answer);
    case Resize(width, height, answer) =>
      if w.voice.listenersAttached {
        RotateOrientationLemmas.UpdateRotateHintKeepsValid(w, width, height, answer);
      }
    case InitRotate(width, height, answer) =>
      RotateOrientationLemmas.UpdateRotateHintKeepsValid(AttachGlobalBlockInputListeners(w), width, height, answer);
  }

  lemma {:induction false} RunKeepsValid(w: World, events: seq<Event>)
    requires Valid(w)
    ensures Valid(Run(w, events).world)
    decreases |events|
  {
    if events != [] {
      StepKeepsValid(w, events[0]);
      RunKeepsValid(Step(w, events[0]).world, events[1..]);
    }
  }

  /** Every world reachable from page load satisfies the invariants: at most
      one deferred sound and none after the gesture, and while locked the
      current voice is the rotate prompt or nothing. */
  lemma Reachable(events: seq<Event>)
    ensures var w := Run(Initial, events).world;
      && Valid(w)
      && (w.audio.interacted ==> w.audio.queued == None)
      && (w.voice.overlayActive ==> w.voice.current == None || w.voice.current == Some(Catalog.VoiceRotate))
  {
    InitialValid();
    RunKeepsValid(Initial, events);
  }

  /** In any world reachable from page load the overlay is only up once the
      block handler is installed, so a tap while locked always reaches it:
      after `unlock`, the tap is a request for the rotate prompt, which
      (once the audio has loaded) is played again. */
  lemma TapWhileLocked(events: seq<Event>, kind: InputKind, answer: Option<Engine.Token>)
    ensures var w := Run(Initial, events).world;
      w.voice.overlayActive ==>
        var u := if kind.ReachesUnlock() then AudioManager.Unlock(w.audio) else AudioManager.Step(w.audio, []);
        var r := PlayVoiceLocked(w.(audio := u.audio), Catalog.VoiceRotate, answer);
        && Step(w, Input(kind, answer)) == Outcome(r.world, u.effects + r.effects)
        && (kind.ReachesUnlock() && w.audio.loaded ==>
              Engine.Play(Catalog.VoiceRotate) in Step(w, Input(kind, answer)).effects)
  {
    Reachable(events);
    var w := Run(Initial, events).world;
    if w.voice.overlayActive && kind.ReachesUnlock() && w.audio.loaded {
      var u := AudioManager.Unlock(w.audio);
      AudioManagerLemmas.UnlockKeepsValid(w.audio);
      var r := PlayVoiceLocked(w.(audio := u.audio), Catalog.VoiceRotate, answer);
      assert Engine.Play(Catalog.VoiceRotate) in r.effects;
    }
  }

  // ------------------------------------------------- the deferred sound

  /** No event replaces a deferred id; the only way it leaves the slot is by
      being played. */
  lemma StepKeepsDeferred(w: World, e: Event, q: string)
    requires Valid(w) && w.audio.queued == Some(q)
    ensures var o := Step(w, e);
      || o.world.audio.queued == Some(q)
      || (o.world.audio.queued == None && o.world.audio.interacted && Engine.Play(q) in o.effects)
  {
    match e
    case Input(kind, answer) =>
      var u := if kind.ReachesUnlock() then AudioManager.Unlock(w.audio) else AudioManager.Step(w.audio, []);
      if kind.ReachesUnlock() {
        AudioManagerLemmas.UnlockDeliversDeferred(w.audio, q);
      }
      var w1 := w.(audio := u.audio);
      if w1.voice.listenersAttached && w1.voice.overlayActive {
        // the handler's own play cannot defer anything once unlocked
        assert u.audio.queued == None || !kind.ReachesUnlock();
      }
    case InitRotate(width, height, answer) =>
      assert AttachGlobalBlockInputListeners(w).audio == w.audio;
    case _ =>
  }

  /** Over any trace, a deferred id is never overwritten: the slot holds it
      until it is played, then stays empty for good. */
  lemma {:induction false} DeferredNeverReplaced(w: World, events: seq<Event>, q: string)
    requires Valid(w) && w.audio.queued == Some(q)
    ensures Run(w, events).world.audio.queued == Some(q)
         || (Run(w, events).world.audio.queued == None && Engine.Play(q) in Run(w, events).effects)
    decreases |events|
  {
    if events != [] {
      var o := Step(w, events[0]);
      var rest := Run(o.world, events[1..]);
      assert Run(w, events) == Outcome(rest.world, o.effects + rest.effects);
      StepKeepsDeferred(w, events[0], q);
      StepKeepsValid(w, events[0]);
      if o.world.audio.queued == Some(q) {
        DeferredNeverReplaced(o.world, events[1..], q);
        if rest.world.audio.queued != Some(q) {
          assert Engine.Play(q) in rest.effects;
        }
      } else {
        AfterGestureNothingDeferred(o.world, events[1..]);
        assert Engine.Play(q) in o.effects;
      }
    }
  }

  /** After the gesture, no trace defers anything again. */
  lemma {:induction false} AfterGestureNothingDeferred(w: World, events: seq<Event>)
    requires Valid(w) && w.audio.interacted
    ensures Run(w, events).world.audio.queued == None
    ensures Run(w, events).world.audio.interacted
    decreases |events|
  {
    if events != [] {
      StepKeepsValid(w, events[0]);
      AfterGestureNothingDeferred(Step(w, events[0]).world, events[1..]);
    }
  }

  // ------------------------------------------------------ monotone flags

  /** `isLoaded`, `hasUserInteracted` and the listeners flag never revert
      over any trace. */
  lemma {:induction false} FlagsNeverRevert(w: World, events: seq<Event>)
    ensures w.audio.loaded ==> Run(w, events).world.audio.loaded
    ensures w.audio.interacted ==> Run(w, events).world.audio.interacted
    ensures w.voice.listenersAttached ==> Run(w, events).world.voice.listenersAttached
    decreases |events|
  {
    if events != [] {
      FlagsNeverRevert(Step(w, events[0]).world, events[1..]);
    }
  }

  /** While locked, no request for a non-rotate key has any effect at all,
      however many arrive. */
  lemma {:induction false} LockedRequestsAreDropped(w: World, keys: seq<string>, answer: Option<Engine.Token>)
    requires w.voice.overlayActive
    requires forall i :: 0 <= i < |keys| ==> keys[i] != Catalog.VoiceRotate
    ensures Run(w, RequestsOf(keys, answer)) == Outcome(w, [])
    decreases |keys|
  {
    if keys != [] {
      assert RequestsOf(keys, answer)[1..] == RequestsOf(keys[1..], answer);
      LockedRequestsAreDropped(w, keys[1..], answer);
    }
  }

  /** `playVoiceLocked` for each key in turn. */
  function RequestsOf(keys: seq<string>, answer: Option<Engine.Token>): (events: seq<Event>)
    ensures |events| == |keys|
    ensures forall i :: 0 <= i < |keys| ==> events[i] == RequestVoice(keys[i], answer)
  {
    seq(|keys|, i requires 0 <= i < |keys| => RequestVoice(keys[i], answer))
  }
}

=== FILE: text.dfy ===
/** The JavaScript string notions the audio code relies on: truthiness,
    `String.prototype.startsWith` and one-digit template rendering. */
module Text {
  import opened Wrappers

  /** `s.startsWith(prefix)`. */
  predicate StartsWith(s: string, prefix: string)
  {
    |prefix| <= |s| && s[..|prefix|] == prefix
  }

  /** A nullable string used as a JavaScript condition: `null` and `""` are
      both falsy, every other string is truthy. */
  predicate Truthy(o: Option<string>)
  {
    o.Some? && o.value != ""
  }

  /** The decimal rendering of a one-digit number, as a template literal
      `${k}` produces it. */
  function Digit(k: int): (s: string)
    requires 0 <= k <= 9
    ensures |s| == 1 && '0' <= s[0] <= '9'
    ensures s[0] as int - '0' as int == k
  {
    [('0' as int + k) as char]
  }

  /** A string starting with a non-empty prefix shares its first character. */
  lemma StartsWithHead(s: string, prefix: string)
    requires StartsWith(s, prefix) && |prefix| > 0
    ensures |s| > 0 && s[0] == prefix[0]
  {
  }

  lemma StartsWithAppend(prefix: string, rest: string)
    ensures StartsWith(prefix + rest, prefix)
  {
  }
}

=== FILE: voice_tiers.dfy ===
/** The voice priority tiers as an explicit enumeration and a data-driven
    lookup table. It is an independent statement of the rule that
    `getVoicePriority` encodes as a chain of string tests; the two are
    proved to agree in `RotateOrientationLemmas.PriorityFollowsTierTable`. */
module VoiceTiers {
  import opened Text

  /** Ordered from least to most important. */
  datatype Tier = Interactive | MustFinish | Feedback | Narration {
    /** The number the arbiter compares; a higher rank pre-empts a lower one. */
    function Rank(): (n: int)
      ensures 1 <= n <= 4
    {
      match this
      case Interactive => 1
      case MustFinish => 2
      case Feedback => 3
      case Narration => 4
    }
  }

  /** Prefixes that mark an interactive prompt, whatever follows. */
  const InteractivePrefixes: seq<string> := ["drag_", "q_"]

  /** Exact keys with a tier of their own, first match wins. */
  const NamedKeys: seq<(string, Tier)> := [
    ("voice_need_finish", MustFinish),
    ("sfx_correct", Feedback),
    ("sfx_wrong", Feedback),
    ("voice_complete", Narration),
    ("voice_intro", Narration),
    ("voice_end", Narration),
    ("voice-rotate", Narration)
  ]

  predicate HasAnyPrefix(key: string, prefixes: seq<string>)
  {
    exists i :: 0 <= i < |prefixes| && StartsWith(key, prefixes[i])
  }

  /** The tier the first entry of `table` naming `key` gives, if any. */
  function LookupNamed(key: string, table: seq<(string, Tier)>): (t: Tier)
    ensures t != Interactive ==> exists i :: 0 <= i < |table| && table[i] == (key, t)
  {
    if table == [] then Interactive
    else if table[0].0 == key then table[0].1
    else LookupNamed(key, table[1..])
  }

  /** The tier of a voice key: an interactive prefix wins, then the named
      keys, and anything else is interactive. */
  function TierOf(key: string): Tier
  {
    if HasAnyPrefix(key, InteractivePrefixes) then Interactive
    else LookupNamed(key, NamedKeys)
  }
}

=== FILE: wrappers.dfy ===
/** Optional values: the source's `T | null` and `T | undefined`. */
module Wrappers {

  /** `T | null` / `T | undefined` in the source. */
  datatype Option<+T> = None | Some(value: T)
}
